=== FILE: README.md ===
# job-alert ingestion pipeline, in Dafny

This project models the ingestion core of the job-alert service (`app.py`).
The service polls a Google Alerts RSS feed and keeps the entries whose titles
mention product roles. It stores them once each, keyed by URL. The model
covers five parts:

- the text sanitizer `strip_html_tags`: decode HTML character references,
  delete every match of `<[^>]+>` left to right, strip whitespace;
- the entry normalizer `normalize_job_data`: split the sanitized title on
  `" - "`, last segment → company, the rest → job title, link → both URL fields;
- the keyword filter `filter_by_keywords` over `KEYWORDS`;
- the retroactive cleaner `clean_existing_jobs`;
- the ingestion cycle `fetch_and_process_jobs`: filter, normalize,
  deduplicate by `job_url` against the store and the records staged earlier
  in the same cycle, then commit all-or-nothing.

Everything is a pure function. A string is `seq<char>`. The store is a
`seq<Job>` in insertion order. A cycle returns a `CycleResult`: either
`Done(store, count)` or `RolledBack(store)`.

Files, one module each:

- `text.dfy` (`Text`): the Python `str` operations used: `in`, `split`, `join`,
  `replace`, `strip`, `lower`.
- `sanitizer.dfy` (`Sanitizer`): `strip_html_tags` and the tag-freeness
  properties.
- `normalizer.dfy` (`Normalizer`): `normalize_job_data`.
- `keywords.dfy` (`Keywords`): `KEYWORDS` and `filter_by_keywords`.
- `store.dfy` (`Store`): the `Job` record (`app.py:23-30`, fields only), the
  URL column and the uniqueness constraint of `app.py:27`.
- `cleaner.dfy` (`Cleaner`): `clean_existing_jobs`.
- `ingestion.dfy` (`Ingestion`): `fetch_and_process_jobs`.

Outside collaborators become parameters:

- `html.unescape` is the parameter `unescape: string -> string`. Where a proof
  needs a general fact about it, the lemma requires `LeavesPlainText(unescape)`:
  a string without `&` comes back unchanged, as it does in Python. The worked
  example and the counterexamples instead require the decoder's output on
  their literal inputs.
- The fetched feed is `Option<seq<FeedEntry>>`. `None` means that
  `feedparser.parse` raised. Missing fields are already `""`.
- The clock reading stored as `created_at` is the parameter `now`, one value for every record of a cycle.
- Whether the database accepts the commit is the parameter `commitSucceeds`.

The duplicate lookup at `app.py:132` runs with autoflush on, so it also sees
records added earlier in the same cycle. The model checks each URL against
the store plus the records staged so far in this cycle.

`strip()` is modelled with Python's full `str.isspace` character set: TAB to
CR, U+001C to U+001F, SPACE, U+0085, U+00A0, U+1680, U+2000 to U+200A,
U+2028, U+2029, U+202F, U+205F and U+3000.

Behaviour of the code worth knowing:

- The company segment loses every occurrence of `" Careers"`, not only a
  trailing one (`app.py:63`). `Normalizer.NormalizeCompanyWithSeparator`
  states this as split-on-`" Careers"`-and-rejoin. The result can even
  contain `" Careers"` again, e.g. from `"x Care Careersers"`.
- The sanitizer, and so the cleaner, is proved idempotent when the
  sanitized text holds no `&` (`Sanitizer.SanitizeIdempotentWithoutAmpersand`).
  Text with a bare `&`, such as `Tom & Jerry`, can still be a fixed point;
  idempotence can fail when a decoded `&` starts a new character reference. A
  title `&amp;lt;b&amp;gt;x` becomes `&lt;b&gt;x` on the first cleaning run
  and `x` on the second. `Sanitizer.SanitizeNotIdempotent` and
  `Cleaner.CleanNotIdempotent` prove this. A second cleaning run is proved to
  report zero changes under the no-`&` proviso
  (`Cleaner.CleanTwiceReportsZero`).
- The company is sanitized a second time (`app.py:69`). This decodes
  character references that were already decoded once in the title.
- `normalize_job_data` can return an empty job title when the title
  sanitizes to `""`. Every record the cycle actually stores has a non-empty
  title, because its title contains `product`
  (`Ingestion.FetchAppendsOnlyNewPassingRecords`).
- URLs are compared exactly. Links that differ only in letter case are
  different keys.

## Model

| member | source | states |
|---|---|---|
| `Text.Contains` | app.py:60 | `title` contains `' - '` (computed by search) exactly when some index holds an occurrence; the empty string occurs everywhere |
| `Text.Join` | app.py:62 | `sep.join(parts)` of no parts is empty, of one part is that part, and otherwise starts with the first part; with `JoinLast` this fixes every join |
| `Text.JoinLast` | app.py:62 | a join of two or more parts is the join of all but the last, the separator, and the last part |
| `Text.Split` | app.py:61 | `str.split(sep)` returns at least one part, and rejoining the parts with `sep` gives back the string (split/join round trip) |
| `Text.SplitCutsLeftmost` | app.py:61 | every cut falls at the leftmost occurrence at or after the start of its part, so with the round trip and `SplitParts` the parts are exactly Python's, also for the self-overlapping `' - '` |
| `Text.FirstCutIsLeftmost` | app.py:61 | cutting at the first occurrence leaves a head that, extended by all but the last separator character, holds no occurrence |
| `Text.SplitParts` | app.py:60-61 | the split yields two or more parts exactly when the separator occurs, and no part contains the separator |
| `Text.ReplaceAll` | app.py:63 | `replace` leaves a string without the target unchanged |
| `Text.ReplaceIsSplitJoin` | app.py:63 | `s.replace(t, u)` equals `u.join(s.split(t))`: every non-overlapping occurrence, left to right, is replaced |
| `Text.Trim` | app.py:52 | `strip()` returns a string with no whitespace at either end, no longer than its input |
| `Text.TrimSlice` | app.py:52 | `strip()` returns the slice between the first and last non-space characters; everything dropped is whitespace |
| `Text.TrimTrimmed` | app.py:52 | `strip()` leaves a string without surrounding whitespace unchanged |
| `Text.TrimNonEmpty` | app.py:62 | stripping a string that has a non-space character leaves a non-empty string |
| `Text.Lower` | app.py:82 | `lower()` keeps the length and lower-cases each character in place |
| `Sanitizer.RemoveTags` | app.py:51 | `re.sub(r'<[^>]+>', '', text)` keeps only characters of its input, and every `<` it keeps is followed by `>` or by no `>` at all (what is kept: the four lemmas below) |
| `Sanitizer.RemoveTagsKeepsText` | app.py:51 | text without `<` is copied through unchanged and in order, and scanning continues after it |
| `Sanitizer.RemoveTagsDropsTag` | app.py:51 | a match at the scan position is deleted whole, and scanning resumes right after it |
| `Sanitizer.RemoveTagsKeepsUnmatchedAngle` | app.py:51 | a `<` that starts no match is kept, and scanning moves on by one character |
| `Sanitizer.RemoveTagsSkipsTag` | app.py:51 | text without `<`, then a match, then anything: the text is kept, the match is deleted, and the rest is processed on its own |
| `Sanitizer.DisarmedIsTagFree` | app.py:51 | a string whose kept `<` are so disarmed contains no substring matching `<[^>]+>` |
| `Sanitizer.TagSpanMatchesTag` | app.py:51 | the index form of a match agrees with the regex `<[^>]+>` applied to the slice |
| `Sanitizer.RemoveTagsKeepsTagFree` | app.py:51 | the substitution changes nothing in a string that has no match |
| `Sanitizer.TagFreeTrim` | app.py:52 | the final `strip()` cannot create a tag |
| `Sanitizer.Sanitize` | app.py:44-52 | `strip_html_tags`: empty input is returned unchanged; otherwise the result has no substring matching `<[^>]+>` and no leading or trailing whitespace |
| `Sanitizer.SanitizeKeepsClean` | app.py:46-52 | text without `&`, tags or surrounding whitespace passes through unchanged, given that unescaping leaves `&`-free text alone |
| `Sanitizer.SanitizeIdempotentWithoutAmpersand` | app.py:49-52 | sanitizing twice equals sanitizing once when the first result has no `&` |
| `Sanitizer.RemoveTagsExample` | app.py:51 | the substitution turns `<b>Hi</b> & Co` into `Hi & Co` |
| `Sanitizer.SanitizeExample` | app.py:44-52 | `strip_html_tags("<b>Hi</b> &amp; Co")` is `Hi & Co` when the decoder turns `&amp;` into `&` |
| `Sanitizer.SanitizeNotIdempotent` | app.py:49-52 | `&amp;lt;b&amp;gt;x` sanitizes to `&lt;b&gt;x` and then to `x`: idempotence fails without the `&` proviso |
| `Normalizer.Normalize` | app.py:55-77 | `job_url` and `apply_link` are the link and `source` is `Google Jobs`; `job_title` and `company` are tag-free and stripped in both branches |
| `Normalizer.SplitHeadIsPrefix` | app.py:61-62 | the parts before the last, rejoined with `' - '`, followed by `' - '` and the last part, make up the title |
| `Normalizer.SeparatorCut` | app.py:60-63 | with a separator, the title is the rejoined head, `' - '`, and a last segment that holds no `' - '` |
| `Normalizer.NormalizeWithoutSeparator` | app.py:64-69 | without `' - '`, the job title is the sanitized title and the company is `Unknown`, which survives the final sanitize |
| `Normalizer.NormalizeTitleWithSeparator` | app.py:60-62 | with `' - '`, the job title is the stripped text before the last split cut |
| `Normalizer.NormalizeCompanyWithSeparator` | app.py:63-69 | with `' - '`, the company is the last segment with every `' Careers'` deleted, stripped, then sanitized again |
| `Normalizer.NormalizeKeepsTitle` | app.py:58-65 | a non-empty sanitized title gives a non-empty job title in either branch |
| `Keywords.AnyKeywordIn` | app.py:80-83 | true iff some lower-cased keyword is a substring of the lower-cased title; false for an empty keyword list |
| `Keywords.FilterByKeywords` | app.py:80-83 | `filter_by_keywords` holds iff some configured keyword, lower-cased, occurs in the lower-cased title |
| `Keywords.KeywordsContainProduct` | app.py:18 | every configured keyword, lower-cased, contains `product` |
| `Keywords.FilterIsProductTest` | app.py:80-83 | with the configured `KEYWORDS`, the filter holds iff `product` occurs case-insensitively in the title |
| `Cleaner.NeedsCleaning` | app.py:95-98 | a job the test at line 98 leaves alone already has tag-free, stripped title and company; a job whose fields are tag-free, stripped and free of `&` never needs cleaning |
| `Cleaner.CleanFieldIsFixed` | app.py:95-96 | a tag-free, stripped field without `&` is unchanged by re-sanitizing |
| `Cleaner.Recleaned` | app.py:92-101 | one loop iteration changes a job iff sanitizing its title or its company changes it; URL, link, source and timestamp are untouched |
| `Cleaner.CleanPass` | app.py:89-101 | same length and order; key fields untouched; exactly the jobs that need it get both fields re-sanitized; the count is the number of changed positions, at most the number of jobs |
| `Cleaner.CountIsDifferences` | app.py:98-101 | `cleaned_count` equals the number of records the loop rewrites |
| `Cleaner.CleanExistingJobs` | app.py:86-108 | a failed commit rolls back to the original store; rollback happens iff the commit fails with changes pending; on success each job is its re-cleaned self and the count is the number changed |
| `Cleaner.NothingToClean` | app.py:98-103 | a zero count means no job needed cleaning, so no commit is needed |
| `Cleaner.CleanPassIdempotent` | app.py:91-101 | after a pass whose sanitized values hold no `&`, a second pass changes nothing and counts zero |
| `Cleaner.CleanTwiceReportsZero` | app.py:86-108 | a second run after a finished run reports zero changes under the same proviso |
| `Cleaner.CleanSingle` | app.py:95-104 | a store of one job that needs cleaning is rewritten and counts one |
| `Cleaner.CleanNotIdempotent` | app.py:95-101 | a doubly encoded tag is rewritten by the first run and again by the second |
| `Ingestion.PassesFilter` | app.py:122-126 | an entry is kept iff its sanitized title contains `product` in any letter case |
| `Ingestion.NewJob` | app.py:129-143 | the record made for an entry has `job_url` and `apply_link` equal to its link, the feed's source label and the clock reading `now` |
| `Ingestion.Staged` | app.py:117-146 | the loop stages at most one record per entry (contents: the lemmas below) |
| `Ingestion.StagedUrls` | app.py:125-146 | a URL is staged iff some entry passing the filter has it and it is not already stored |
| `Ingestion.StagedDistinct` | app.py:131-134 | no URL is staged twice, even when feed entries share a link |
| `Ingestion.StagedFromCandidates` | app.py:125-146 | every staged record is the normalized record of an entry that passes the filter |
| `Ingestion.StagedIsFirstSightings` | app.py:117-146 | the staged batch equals, in feed order, the records of the entries that pass the filter, whose link is not stored and not offered by an earlier passing entry |
| `Ingestion.FetchAndProcessJobs` | app.py:111-153 | rollback iff fetch or commit fails, and then the store is unchanged; on success the existing records are an untouched prefix and the count is the number appended, at most the number of entries |
| `Ingestion.OfferedByFeed` | app.py:125-132 | a passing candidate offers a URL iff a passing entry has that link |
| `Ingestion.FetchAppendsFirstSightings` | app.py:117-148 | a successful cycle appends exactly the first sightings of new URLs and counts them |
| `Ingestion.FetchStoresEveryPassingUrl` | app.py:125-148 | after a successful cycle the link of every entry that passes the filter is stored |
| `Ingestion.FetchKeepsUrlsDistinct` | app.py:131-148 | pairwise distinct stored URLs stay pairwise distinct after any cycle |
| `Ingestion.AppendFreshKeepsDistinct` | app.py:145-148 | adding distinct records with unstored URLs keeps the store's URLs distinct |
| `Ingestion.FetchAppendsOnlyNewPassingRecords` | app.py:122-146 | every appended record comes from a passing entry, has a URL that was not stored before, a non-empty tag-free stripped title and a tag-free stripped company |
| `Ingestion.NewJobShape` | app.py:125-129 | the record of an entry that passes the filter has a non-empty, tag-free, stripped title and a tag-free, stripped company |
| `Ingestion.SecondFetchAddsNothing` | app.py:131-134 | a second successful cycle over the same feed appends nothing |

## Left out

- Flask routes, templates, `jsonify`, pagination and the stats, refresh and clean endpoints (`app.py:168-222`): presentation over Flask and SQLAlchemy.
- `BackgroundScheduler`, `atexit`, `main` and `app.run` (`app.py:156-165`, `app.py:225-244`): timer and process plumbing. Overlapping scheduled and manual runs are a concurrency matter and are not modelled.
- `feedparser.parse` (`app.py:114`): network I/O; the entries are an input.
- The tables of `html.unescape`: a foreign, table-driven decoder. It is a parameter. The general lemmas assume only `LeavesPlainText` (text without `&` comes back unchanged). The worked example (`Sanitizer.SanitizeExample`) and the two counterexamples (`Sanitizer.SanitizeNotIdempotent`, `Cleaner.CleanNotIdempotent`) also take as preconditions what `html.unescape` returns on their literal inputs.
- Text.Lower: Python's `lower()` is modelled for the ASCII letters `A`-`Z` only; other Unicode case mappings are not modelled. For the configured `KEYWORDS` this gives the same answer as the full mapping on whether `product` occurs: only U+212A (Kelvin sign) and U+0130 lower-case into ASCII letters, to `k` and `i` (plus a combining dot), and neither letter occurs in `product`.
- Keywords.AnyKeywordIn: inherits the ASCII-only lower-casing of `Text.Lower`.
- Sanitizer.Sanitize: a `None` input (`if not text: return text`) is not modelled, because every caller passes a string.
- Ingestion.NewJob: `created_at` is `default=datetime.utcnow` (`app.py:30`), read at each row's INSERT. Autoflush inserts each row at the next lookup (`app.py:132`) or at the commit (`app.py:148`), so the records of one cycle can get different readings. The model gives them all one `now`, because the clock is outside the model and no property here depends on the timestamps.
- SQLAlchemy session internals, the autoincrement `id`, column length limits, `print` logging, `SLACK_WEBHOOK_URL` and the environment configuration.
- Cleaner.CleanExistingJobs: a failure of `Job.query.all()` is not separated from a failed commit. Either way the store is left as it was.
- The counts are printed, not returned, by the source; the model returns them in `CycleResult`.
- `setup.py`: packaging metadata with no logic.

=== FILE: cleaner.dfy ===
/**
 The retroactive cleaner `clean_existing_jobs`: re-sanitize the title and the
 company of every stored job, rewrite and count the jobs where either value
 changes, and commit the rewrites as one batch.
 */
module Cleaner {
  import opened Text
  import opened Sanitizer
  import opened Store

  /** Sanitizing the job's title or its company would change it. A job that
      does not need cleaning already has tag-free, stripped fields; a job
      whose fields are tag-free, stripped and free of `&` never needs it. */
  function NeedsCleaning(unescape: Unescape, job: Job): (r: bool)
    ensures !r ==> TagFree(job.jobTitle) && Trimmed(job.jobTitle)
    ensures !r ==> TagFree(job.company) && Trimmed(job.company)
    ensures LeavesPlainText(unescape)
      && '&' !in job.jobTitle && TagFree(job.jobTitle) && Trimmed(job.jobTitle)
      && '&' !in job.company && TagFree(job.company) && Trimmed(job.company)
      ==> !r
  {
    CleanFieldIsFixed(unescape, job.jobTitle);
    CleanFieldIsFixed(unescape, job.company);
    || Sanitize(unescape, job.jobTitle) != job.jobTitle
    || Sanitize(unescape, job.company) != job.company
  }

  /** A field that is already clean is a fixed point of the sanitizer. */
  lemma CleanFieldIsFixed(unescape: Unescape, s: string)
    ensures LeavesPlainText(unescape) && '&' !in s && TagFree(s) && Trimmed(s)
      ==> Sanitize(unescape, s) == s
  {
    if LeavesPlainText(unescape) && '&' !in s && TagFree(s) && Trimmed(s) {
      SanitizeKeepsClean(unescape, s);
    }
  }

  /** The job with both display fields re-sanitized. */
  function CleanJob(unescape: Unescape, job: Job): Job {
    job.(jobTitle := Sanitize(unescape, job.jobTitle), company := Sanitize(unescape, job.company))
  }

  /** One iteration of the loop: the job as it is after the iteration. It
      differs from the stored job exactly when the job needs cleaning, and
      the key, link, source and timestamp are never touched. */
  function Recleaned(unescape: Unescape, job: Job): (j: Job)
    ensures j != job <==> NeedsCleaning(unescape, job)
    ensures j.jobUrl == job.jobUrl && j.applyLink == job.applyLink
    ensures j.source == job.source && j.createdAt == job.createdAt
  {
    if NeedsCleaning(unescape, job) then CleanJob(unescape, job) else job
  }

  /** The number of positions at which `a` and `b` hold different jobs. */
  function Differences(a: seq<Job>, b: seq<Job>): nat
    requires |a| == |b|
  {
    if |a| == 0 then 0
    else (if a[0] != b[0] then 1 else 0) + Differences(a[1..], b[1..])
  }

  /** `cleaned_count`: the number of jobs that need cleaning. */
  function CountNeedingCleaning(unescape: Unescape, jobs: seq<Job>): nat {
    if |jobs| == 0 then 0
    else (if NeedsCleaning(unescape, jobs[0]) then 1 else 0) + CountNeedingCleaning(unescape, jobs[1..])
  }

  /** The loop of `clean_existing_jobs` over the loaded jobs: the cleaned
      jobs, in the same order, and the number rewritten. Exactly the jobs
      whose title or company sanitizes differently are rewritten, both fields
      at once; every other job, and every other field, is left as it was; the
      count is the number of positions that differ. */
  function CleanPass(unescape: Unescape, jobs: seq<Job>): (r: (seq<Job>, nat))
    ensures |r.0| == |jobs|
    ensures r.1 <= |jobs|
    ensures forall i :: 0 <= i < |jobs| ==>
      && r.0[i].jobUrl == jobs[i].jobUrl
      && r.0[i].applyLink == jobs[i].applyLink
      && r.0[i].source == jobs[i].source
      && r.0[i].createdAt == jobs[i].createdAt
    ensures forall i :: 0 <= i < |jobs| && NeedsCleaning(unescape, jobs[i]) ==>
      && r.0[i].jobTitle == Sanitize(unescape, jobs[i].jobTitle)
      && r.0[i].company == Sanitize(unescape, jobs[i].company)
    ensures forall i :: 0 <= i < |jobs| && !NeedsCleaning(unescape, jobs[i]) ==> r.0[i] == jobs[i]
    ensures r.1 == Differences(jobs, r.0)
  {
    var cleaned := seq(|jobs|, i requires 0 <= i < |jobs| => Recleaned(unescape, jobs[i]));
    CountIsDifferences(unescape, jobs, cleaned);
    (cleaned, CountNeedingCleaning(unescape, jobs))
  }

  /** Counting the jobs that need cleaning counts the positions the
      per-job rewrite changes. */
  lemma {:induction false} CountIsDifferences(unescape: Unescape, jobs: seq<Job>, cleaned: seq<Job>)
    requires |cleaned| == |jobs|
    requires forall i :: 0 <= i < |jobs| ==> cleaned[i] == Recleaned(unescape, jobs[i])
    ensures CountNeedingCleaning(unescape, jobs) == Differences(jobs, cleaned)
    ensures CountNeedingCleaning(unescape, jobs) <= |jobs|
    decreases |jobs|
  {
    if |jobs| > 0 {
      assert jobs[0] != cleaned[0] <==> NeedsCleaning(unescape, jobs[0]);
      CountIsDifferences(unescape, jobs[1..], cleaned[1..]);
    }
  }

  /** `clean_existing_jobs()` against `store`. A commit is attempted only
      when some job changed; `commitSucceeds` says whether the database
      accepts it. On failure the session is rolled back and the store is left
      as it was. */
  function CleanExistingJobs(unescape: Unescape, store: seq<Job>, commitSucceeds: bool): (r: CycleResult)
    ensures r.RolledBack? ==> r.store == store
    ensures r.RolledBack? <==> !commitSucceeds && CountNeedingCleaning(unescape, store) > 0
    ensures |r.store| == |store|
    ensures r.Done? ==> r.count <= |store| && r.count == Differences(store, r.store)
    ensures r.Done? ==> forall i :: 0 <= i < |store| ==> r.store[i] == Recleaned(unescape, store[i])
  {
    var (cleaned, n) := CleanPass(unescape, store);
    if n == 0 then
      NothingToClean(unescape, store);
      assert cleaned == store;
      NoDifferencesWithSelf(store);
      Done(store, 0)
    else if commitSucceeds then Done(cleaned, n)
    else RolledBack(store)
  }

  /** A zero count means no job needs cleaning. */
  lemma {:induction false} NothingToClean(unescape: Unescape, jobs: seq<Job>)
    requires CountNeedingCleaning(unescape, jobs) == 0
    ensures forall i :: 0 <= i < |jobs| ==> !NeedsCleaning(unescape, jobs[i])
    decreases |jobs|
  {
    if |jobs| > 0 {
      NothingToClean(unescape, jobs[1..]);
      assert forall i :: 1 <= i < |jobs| ==> jobs[i] == jobs[1..][i - 1];
    }
  }

  /** A sequence has no differences with itself. */
  lemma {:induction false} NoDifferencesWithSelf(a: seq<Job>)
    ensures Differences(a, a) == 0
    decreases |a|
  {
    if |a| > 0 {
      NoDifferencesWithSelf(a[1..]);
    }
  }

  /** After a pass whose sanitized values hold no `&`, a second pass
      changes nothing and counts zero. */
  lemma {:induction false} CleanPassIdempotent(unescape: Unescape, jobs: seq<Job>)
    requires LeavesPlainText(unescape)
    requires forall i :: 0 <= i < |jobs| ==>
      '&' !in Sanitize(unescape, jobs[i].jobTitle) && '&' !in Sanitize(unescape, jobs[i].company)
    ensures CleanPass(unescape, CleanPass(unescape, jobs).0).0 == CleanPass(unescape, jobs).0
    ensures CleanPass(unescape, CleanPass(unescape, jobs).0).1 == 0
  {
    var once := CleanPass(unescape, jobs).0;
    forall i | 0 <= i < |once|
      ensures !NeedsCleaning(unescape, once[i])
    {
      SanitizeIdempotentWithoutAmpersand(unescape, jobs[i].jobTitle);
      SanitizeIdempotentWithoutAmpersand(unescape, jobs[i].company);
    }
    var twice := CleanPass(unescape, once).0;
    assert twice == once;
    NoDifferencesWithSelf(once);
  }

  /** Running the cleaner again after a finished run reports zero changes,
      provided the cleaned values hold no `&`. */
  lemma CleanTwiceReportsZero(unescape: Unescape, store: seq<Job>, first: bool, second: bool)
    requires LeavesPlainText(unescape)
    requires forall i :: 0 <= i < |store| ==>
      '&' !in Sanitize(unescape, store[i].jobTitle) && '&' !in Sanitize(unescape, store[i].company)
    requires CleanExistingJobs(unescape, store, first).Done?
    ensures var after := CleanExistingJobs(unescape, store, first).store;
      CleanExistingJobs(unescape, after, second) == Done(after, 0)
  {
    CleanPassIdempotent(unescape, store);
    var (cleaned, n) := CleanPass(unescape, store);
    if n == 0 {
      assert CleanPass(unescape, store).0 == store;
    }
  }

  /** Cleaning a store of one job that needs it rewrites that job and
      counts one. */
  lemma CleanSingle(unescape: Unescape, job: Job)
    requires NeedsCleaning(unescape, job)
    ensures CleanExistingJobs(unescape, [job], true) == Done([CleanJob(unescape, job)], 1)
  {
    var store := [job];
    assert CountNeedingCleaning(unescape, store[1..]) == 0;
    assert CountNeedingCleaning(unescape, store) == 1;
    assert CleanPass(unescape, store).0 == [CleanJob(unescape, job)];
  }

  /** Without the proviso the cleaner is not idempotent: a title holding a
      doubly encoded tag is rewritten on the first run and again on the
      second. */
  lemma CleanNotIdempotent(unescape: Unescape, url: string)
    requires unescape("&amp;lt;b&amp;gt;x") == "&lt;b&gt;x"
    requires unescape("&lt;b&gt;x") == "<b>x"
    ensures var store := [Job("&amp;lt;b&amp;gt;x", "", url, url, "Google Jobs", 0)];
      var first := CleanExistingJobs(unescape, store, true);
      && first == Done([Job("&lt;b&gt;x", "", url, url, "Google Jobs", 0)], 1)
      && CleanExistingJobs(unescape, first.store, true) == Done([Job("x", "", url, url, "Google Jobs", 0)], 1)
  {
    SanitizeNotIdempotent(unescape);
    var job := Job("&amp;lt;b&amp;gt;x", "", url, url, "Google Jobs", 0);
    var once := Job("&lt;b&gt;x", "", url, url, "Google Jobs", 0);
    assert CleanJob(unescape, job) == once;
    CleanSingle(unescape, job);
    assert CleanJob(unescape, once) == Job("x", "", url, url, "Google Jobs", 0);
    CleanSingle(unescape, once);
  }
}

=== FILE: ingestion.dfy ===
/**
 The ingestion pipeline `fetch_and_process_jobs`: for each fetched feed entry
 in order, keep it only if its sanitized title passes the keyword filter,
 normalize it, skip it if its URL is already stored or already staged in this
 cycle, and otherwise stage a new record; then commit the staged records as
 one batch.

 The per-entry work that does not depend on the store (filter and normalize)
 is a `Candidate`; the duplicate check and staging are stated over candidates.
 */
module Ingestion {
  import opened Text
  import opened Sanitizer
  import opened Normalizer
  import opened Keywords
  import opened Store

  /** One fetched feed entry; a missing title or link is already `""`. */
  datatype FeedEntry = FeedEntry(title: string, link: string)

  /** The entry's sanitized title passes the keyword filter: it contains
      `product` in any letter case. */
  function PassesFilter(unescape: Unescape, e: FeedEntry): (r: bool)
    ensures r <==> IsSubstring("product", Lower(Sanitize(unescape, e.title)))
  {
    FilterIsProductTest(Sanitize(unescape, e.title));
    FilterByKeywords(Sanitize(unescape, e.title))
  }

  /** The record created for an entry, normalized from its raw title. */
  function NewJob(unescape: Unescape, e: FeedEntry, now: int): (job: Job)
    ensures job.jobUrl == e.link && job.applyLink == e.link
    ensures job.source == FeedSource && job.createdAt == now
  {
    var d := Normalize(unescape, e.title, e.link);
    Job(d.jobTitle, d.company, d.jobUrl, d.applyLink, d.source, now)
  }

  /** What the loop body decides about one entry before the duplicate
      check: whether it passes the filter, and the record it would insert. */
  datatype Candidate = Candidate(passes: bool, job: Job)

  /** The candidates of a feed, entry by entry. */
  function Candidates(unescape: Unescape, feed: seq<FeedEntry>, now: int): (cs: seq<Candidate>)
    ensures |cs| == |feed|
    ensures forall i :: 0 <= i < |feed| ==>
      cs[i].passes == PassesFilter(unescape, feed[i]) && cs[i].job == NewJob(unescape, feed[i], now)
  {
    seq(|feed|, i requires 0 <= i < |feed| => Candidate(PassesFilter(unescape, feed[i]), NewJob(unescape, feed[i], now)))
  }

  /** The URL column of a concatenation. */
  lemma UrlsConcat(a: seq<Job>, b: seq<Job>)
    ensures Urls(a + b) == Urls(a) + Urls(b)
  {
    assert |Urls(a + b)| == |Urls(a) + Urls(b)|;
    forall i | 0 <= i < |a| + |b|
      ensures Urls(a + b)[i] == (Urls(a) + Urls(b))[i]
    {
      if i >= |a| {
        assert (a + b)[i] == b[i - |a|];
      }
    }
  }

  /** The records the loop stages for insertion, in feed order: a candidate
      is staged when it passes the filter and its URL is neither stored nor
      staged by an earlier candidate (pending records are flushed before
      each lookup, so the lookup sees them). */
  function Staged(store: seq<Job>, cs: seq<Candidate>): (staged: seq<Job>)
    ensures |staged| <= |cs|
    decreases |cs|
  {
    if |cs| == 0 then []
    else
      var prev := Staged(store, cs[..|cs| - 1]);
      var c := cs[|cs| - 1];
      if c.passes && c.job.jobUrl !in Urls(store + prev) then prev + [c.job] else prev
  }

  /** Some passing candidate carries URL `u`. */
  ghost predicate Offered(cs: seq<Candidate>, u: string) {
    exists j :: 0 <= j < |cs| && cs[j].passes && cs[j].job.jobUrl == u
  }

  /** Offering through one more candidate. */
  lemma OfferedSnoc(init: seq<Candidate>, c: Candidate)
    ensures forall u :: Offered(init + [c], u) <==> Offered(init, u) || (c.passes && c.job.jobUrl == u)
  {
    var cs := init + [c];
    forall u | Offered(cs, u)
      ensures Offered(init, u) || (c.passes && c.job.jobUrl == u)
    {
      var j :| 0 <= j < |cs| && cs[j].passes && cs[j].job.jobUrl == u;
      if j < |init| {
        assert init[j] == cs[j];
      }
    }
    forall u | Offered(init, u)
      ensures Offered(cs, u)
    {
      var j :| 0 <= j < |init| && init[j].passes && init[j].job.jobUrl == u;
      assert cs[j] == init[j];
    }
    assert cs[|init|] == c;
  }

  /** A URL is staged exactly when a passing candidate offers it and it is
      not already stored. */
  lemma {:induction false} StagedUrls(store: seq<Job>, cs: seq<Candidate>)
    ensures forall u :: u in Urls(Staged(store, cs)) <==> u !in Urls(store) && Offered(cs, u)
    decreases |cs|
  {
    if |cs| > 0 {
      var init := cs[..|cs| - 1];
      var c := cs[|cs| - 1];
      assert cs == init + [c];
      var prev := Staged(store, init);
      StagedUrls(store, init);
      UrlsConcat(store, prev);
      UrlsConcat(prev, [c.job]);
      OfferedSnoc(init, c);
    }
  }

  /** No URL is staged twice. */
  lemma {:induction false} StagedDistinct(store: seq<Job>, cs: seq<Candidate>)
    ensures DistinctUrls(Staged(store, cs))
    decreases |cs|
  {
    if |cs| > 0 {
      var init := cs[..|cs| - 1];
      var c := cs[|cs| - 1];
      var prev := Staged(store, init);
      var staged := Staged(store, cs);
      StagedDistinct(store, init);
      if c.passes && c.job.jobUrl !in Urls(store + prev) {
        assert staged == prev + [c.job];
        UrlsConcat(store, prev);
        assert c.job.jobUrl !in Urls(prev);
        forall i, j | 0 <= i < j < |staged|
          ensures staged[i].jobUrl != staged[j].jobUrl
        {
          assert staged[i] == prev[i];
          if j == |prev| {
            assert Urls(prev)[i] == prev[i].jobUrl;
          } else {
            assert staged[j] == prev[j];
          }
        }
      }
    }
  }

  /** Every staged record is the record of some passing candidate. */
  lemma {:induction false} StagedFromCandidates(store: seq<Job>, cs: seq<Candidate>)
    ensures forall job :: job in Staged(store, cs) ==> Candidate(true, job) in cs
    decreases |cs|
  {
    if |cs| > 0 {
      var init := cs[..|cs| - 1];
      StagedFromCandidates(store, init);
      assert forall c :: c in init ==> c in cs;
    }
  }

  /** Candidate `i` is the first sighting of a new URL: it passes the
      filter, its URL is not stored, and no earlier passing candidate has
      that URL. */
  ghost predicate FirstSighting(store: seq<Job>, cs: seq<Candidate>, i: nat)
    requires i < |cs|
  {
    && cs[i].passes
    && cs[i].job.jobUrl !in Urls(store)
    && !Offered(cs[..i], cs[i].job.jobUrl)
  }

  /** Reference definition of the staged batch: the records of the first
      sightings, in feed order. It does not consult the batch being built. */
  ghost function FirstSightings(store: seq<Job>, cs: seq<Candidate>): seq<Job>
    decreases |cs|
  {
    if |cs| == 0 then []
    else
      var i := |cs| - 1;
      FirstSightings(store, cs[..i]) + (if FirstSighting(store, cs, i) then [cs[i].job] else [])
  }

  /** The loop, which checks each URL against the store and the batch staged
      so far, stages exactly the first sightings. */
  lemma {:induction false} StagedIsFirstSightings(store: seq<Job>, cs: seq<Candidate>)
    ensures Staged(store, cs) == FirstSightings(store, cs)
    decreases |cs|
  {
    if |cs| > 0 {
      var i := |cs| - 1;
      var init := cs[..i];
      var c := cs[i];
      var prev := Staged(store, init);
      StagedIsFirstSightings(store, init);
      StagedUrls(store, init);
      UrlsConcat(store, prev);
      var u := c.job.jobUrl;
      assert u in Urls(store + prev) <==> u in Urls(store) || u in Urls(prev);
      assert u in Urls(store + prev) <==> u in Urls(store) || Offered(init, u);
      assert FirstSighting(store, cs, i) <==> c.passes && u !in Urls(store) && !Offered(init, u);
      assert Staged(store, cs) == prev + (if c.passes && u !in Urls(store + prev) then [c.job] else []);
    }
  }

  /** `fetch_and_process_jobs()`. `feed` is the fetched entry list, or `None`
      when fetching or parsing raised; `now` is the clock reading stored as
      `created_at`; `commitSucceeds` says whether the database accepts the
      batch. Any failure rolls the whole batch back. On success the staged
      records are appended after the untouched existing ones, and the count
      is the number appended. */
  function FetchAndProcessJobs(
    unescape: Unescape, store: seq<Job>, feed: Option<seq<FeedEntry>>, now: int, commitSucceeds: bool): (r: CycleResult)
    ensures r.RolledBack? <==> feed.None? || !commitSucceeds
    ensures r.RolledBack? ==> r.store == store
    ensures r.Done? ==> |r.store| == |store| + r.count && r.store[..|store|] == store
    ensures r.Done? ==> r.count <= |feed.value|
  {
    match feed
    case None => RolledBack(store)
    case Some(entries) =>
      var staged := Staged(store, Candidates(unescape, entries, now));
      if commitSucceeds then
        assert (store + staged)[..|store|] == store;
        Done(store + staged, |staged|)
      else
        RolledBack(store)
  }

  /** A passing candidate of the feed offers exactly the link of a passing
      entry. */
  lemma OfferedByFeed(unescape: Unescape, feed: seq<FeedEntry>, now: int, u: string)
    ensures Offered(Candidates(unescape, feed, now), u) <==>
      exists i :: 0 <= i < |feed| && PassesFilter(unescape, feed[i]) && feed[i].link == u
  {
    var cs := Candidates(unescape, feed, now);
    if exists i :: 0 <= i < |feed| && PassesFilter(unescape, feed[i]) && feed[i].link == u {
      var i :| 0 <= i < |feed| && PassesFilter(unescape, feed[i]) && feed[i].link == u;
      assert cs[i].passes && cs[i].job.jobUrl == u;
    }
  }

  /** A successful cycle appends exactly the first sightings of new URLs:
      for each passing entry whose link is not stored and not offered by an
      earlier passing entry, the record normalized from it, in feed order. */
  lemma FetchAppendsFirstSightings(unescape: Unescape, store: seq<Job>, feed: seq<FeedEntry>, now: int)
    ensures var added := FirstSightings(store, Candidates(unescape, feed, now));
      FetchAndProcessJobs(unescape, store, Some(feed), now, true) == Done(store + added, |added|)
  {
    StagedIsFirstSightings(store, Candidates(unescape, feed, now));
  }

  /** After a successful cycle the link of every entry that passes the
      filter is stored. */
  lemma FetchStoresEveryPassingUrl(unescape: Unescape, store: seq<Job>, feed: seq<FeedEntry>, now: int)
    ensures var after := FetchAndProcessJobs(unescape, store, Some(feed), now, true).store;
      forall i :: 0 <= i < |feed| && PassesFilter(unescape, feed[i]) ==> feed[i].link in Urls(after)
  {
    var cs := Candidates(unescape, feed, now);
    var staged := Staged(store, cs);
    StagedUrls(store, cs);
    UrlsConcat(store, staged);
    forall i | 0 <= i < |feed| && PassesFilter(unescape, feed[i])
      ensures feed[i].link in Urls(store) || Offered(cs, feed[i].link)
    {
      assert cs[i].passes && cs[i].job.jobUrl == feed[i].link;
    }
  }

  /** If the stored URLs are pairwise distinct before a cycle, they are
      afterwards, whatever the feed, including entries that share a link. */
  lemma FetchKeepsUrlsDistinct(
    unescape: Unescape, store: seq<Job>, feed: Option<seq<FeedEntry>>, now: int, commitSucceeds: bool)
    requires DistinctUrls(store)
    ensures DistinctUrls(FetchAndProcessJobs(unescape, store, feed, now, commitSucceeds).store)
  {
    if feed.Some? && commitSucceeds {
      var cs := Candidates(unescape, feed.value, now);
      var staged := Staged(store, cs);
      StagedDistinct(store, cs);
      StagedUrls(store, cs);
      AppendFreshKeepsDistinct(store, staged);
    }
  }

  /** Appending distinct records whose URLs are not stored keeps the store's
      URLs distinct. */
  lemma AppendFreshKeepsDistinct(store: seq<Job>, staged: seq<Job>)
    requires DistinctUrls(store) && DistinctUrls(staged)
    requires forall u :: u in Urls(staged) ==> u !in Urls(store)
    ensures DistinctUrls(store + staged)
  {
    var after := store + staged;
    forall i, j | 0 <= i < j < |after|
      ensures after[i].jobUrl != after[j].jobUrl
    {
      if j >= |store| {
        assert after[j] == staged[j - |store|];
        assert Urls(staged)[j - |store|] == after[j].jobUrl;
        assert after[j].jobUrl in Urls(staged);
        if i < |store| {
          assert Urls(store)[i] == after[i].jobUrl;
          assert after[i].jobUrl in Urls(store);
        } else {
          assert after[i] == staged[i - |store|];
        }
      } else {
        assert after[i] == store[i] && after[j] == store[j];
      }
    }
  }

  /** Every record a cycle appends was normalized from an entry that passes
      the filter, carries a URL that was not stored before, and has a
      non-empty, tag-free, stripped job title and a tag-free, stripped
      company. */
  lemma FetchAppendsOnlyNewPassingRecords(unescape: Unescape, store: seq<Job>, feed: seq<FeedEntry>, now: int)
    ensures var after := FetchAndProcessJobs(unescape, store, Some(feed), now, true).store;
      forall k :: |store| <= k < |after| ==>
        && (exists i :: 0 <= i < |feed| && PassesFilter(unescape, feed[i]) && after[k] == NewJob(unescape, feed[i], now))
        && after[k].jobUrl !in Urls(store)
        && |after[k].jobTitle| > 0
        && TagFree(after[k].jobTitle) && Trimmed(after[k].jobTitle)
        && TagFree(after[k].company) && Trimmed(after[k].company)
  {
    var cs := Candidates(unescape, feed, now);
    var staged := Staged(store, cs);
    var after := store + staged;
    StagedFromCandidates(store, cs);
    StagedUrls(store, cs);
    forall k | |store| <= k < |after|
      ensures exists i :: 0 <= i < |feed| && PassesFilter(unescape, feed[i]) && after[k] == NewJob(unescape, feed[i], now)
      ensures after[k].jobUrl !in Urls(store)
      ensures |after[k].jobTitle| > 0
      ensures TagFree(after[k].jobTitle) && Trimmed(after[k].jobTitle)
      ensures TagFree(after[k].company) && Trimmed(after[k].company)
    {
      var job := after[k];
      assert job == staged[k - |store|];
      assert Urls(staged)[k - |store|] == job.jobUrl;
      assert Candidate(true, job) in cs;
      var i :| 0 <= i < |cs| && cs[i] == Candidate(true, job);
      NewJobShape(unescape, feed[i], now);
    }
  }

  /** The record built for a passing entry has a non-empty, tag-free,
      stripped title and a tag-free, stripped company. */
  lemma NewJobShape(unescape: Unescape, e: FeedEntry, now: int)
    requires PassesFilter(unescape, e)
    ensures |NewJob(unescape, e, now).jobTitle| > 0
    ensures TagFree(NewJob(unescape, e, now).jobTitle) && Trimmed(NewJob(unescape, e, now).jobTitle)
    ensures TagFree(NewJob(unescape, e, now).company) && Trimmed(NewJob(unescape, e, now).company)
  {
    var t := Sanitize(unescape, e.title);
    FilterIsProductTest(t);
    var m: nat :| OccursAt(Lower(t), "product", m);
    NormalizeKeepsTitle(unescape, e.title, e.link);
  }

  /** A second successful cycle over the same feed appends nothing. */
  lemma SecondFetchAddsNothing(unescape: Unescape, store: seq<Job>, feed: seq<FeedEntry>, now: int, later: int)
    ensures var after := FetchAndProcessJobs(unescape, store, Some(feed), now, true).store;
      FetchAndProcessJobs(unescape, after, Some(feed), later, true) == Done(after, 0)
  {
    var after := FetchAndProcessJobs(unescape, store, Some(feed), now, true).store;
    FetchStoresEveryPassingUrl(unescape, store, feed, now);
    var cs := Candidates(unescape, feed, later);
    var again := Staged(after, cs);
    StagedUrls(after, cs);
    forall u | Offered(cs, u)
      ensures u in Urls(after)
    {
      OfferedByFeed(unescape, feed, later, u);
    }
    if |again| > 0 {
      assert Urls(again)[0] in Urls(again);
    }
  }
}

=== FILE: keywords.dfy ===
/**
 The keyword filter `filter_by_keywords`: a case-insensitive substring test
 of a title against the configured keyword list.
 */
module Keywords {
  import opened Text

  /** The configured keyword list. */
  const KEYWORDS: seq<string> := ["Product manager", "product marketing", "product"]

  /** Some keyword, lower-cased, occurs in the lower-cased title. Substrings
      inside longer words count; there is no token boundary. */
  function AnyKeywordIn(title: string, keywords: seq<string>): (r: bool)
    ensures r <==> exists i :: 0 <= i < |keywords| && IsSubstring(Lower(keywords[i]), Lower(title))
    ensures |keywords| == 0 ==> !r
  {
    if |keywords| == 0 then false
    else if Contains(Lower(title), Lower(keywords[0])) then true
    else
      var r := AnyKeywordIn(title, keywords[1..]);
      assert forall i :: 1 <= i < |keywords| ==> keywords[i] == keywords[1..][i - 1];
      r
  }

  /** `filter_by_keywords(title)` against the configured list. */
  function FilterByKeywords(title: string): (r: bool)
    ensures r <==> exists i :: 0 <= i < |KEYWORDS| && IsSubstring(Lower(KEYWORDS[i]), Lower(title))
  {
    AnyKeywordIn(title, KEYWORDS)
  }

  /** Each configured keyword, lower-cased, contains `product`. */
  lemma KeywordsContainProduct()
    ensures forall i :: 0 <= i < |KEYWORDS| ==> IsSubstring("product", Lower(KEYWORDS[i]))
  {
    forall i | 0 <= i < |KEYWORDS|
      ensures IsSubstring("product", Lower(KEYWORDS[i]))
    {
      var k := Lower(KEYWORDS[i]);
      assert k[0] == 'p' && k[1] == 'r' && k[2] == 'o' && k[3] == 'd';
      assert k[4] == 'u' && k[5] == 'c' && k[6] == 't';
      assert k[0..7] == "product";
      assert OccursAt(k, "product", 0);
    }
  }

  /** With the configured list, the filter is exactly a case-insensitive
      test for `product`: the two longer keywords both contain it. */
  lemma FilterIsProductTest(title: string)
    ensures FilterByKeywords(title) <==> IsSubstring("product", Lower(title))
  {
    KeywordsContainProduct();
    if FilterByKeywords(title) {
      var i :| 0 <= i < |KEYWORDS| && IsSubstring(Lower(KEYWORDS[i]), Lower(title));
      SubstringTransitive("product", Lower(KEYWORDS[i]), Lower(title));
    }
    if IsSubstring("product", Lower(title)) {
      assert Lower(KEYWORDS[2]) == "product";
    }
  }
}

=== FILE: normalizer.dfy ===
/**
 The entry normalizer `normalize_job_data`: sanitize the raw feed title, split
 it on ` - `, take the last segment as the company and the rest, rejoined, as
 the job title; copy the link into both URL fields.
 */
module Normalizer {
  import opened Text
  import opened Sanitizer

  /** The separator between job title and company in a feed title. */
  const Separator: string := " - "
  /** Deleted from the company segment wherever it occurs. */
  const CareersWord: string := " Careers"
  /** The company used when the title has no separator. */
  const UnknownCompany: string := "Unknown"
  /** The provenance label of this feed integration. */
  const FeedSource: string := "Google Jobs"

  /** The fields `normalize_job_data` returns. */
  datatype JobData = JobData(jobTitle: string, company: string, jobUrl: string, applyLink: string, source: string)

  /** `normalize_job_data(title, link)`. Both display fields come out tag-free
      and stripped; the URL fields are the link itself. */
  function Normalize(unescape: Unescape, title: string, link: string): (d: JobData)
    ensures d.jobUrl == link && d.applyLink == link && d.source == FeedSource
    ensures TagFree(d.jobTitle) && Trimmed(d.jobTitle)
    ensures TagFree(d.company) && Trimmed(d.company)
  {
    var t := Sanitize(unescape, title);
    if Contains(t, Separator) then
      var head := HeadSegments(t);
      var company := Trim(ReplaceAll(LastSegment(t), CareersWord, ""));
      SeparatorCut(t);
      TagFreeInfix(t, head, 0);
      TagFreeTrim(head);
      JobData(Trim(head), Sanitize(unescape, company), link, link, FeedSource)
    else
      JobData(t, Sanitize(unescape, UnknownCompany), link, link, FeedSource)
  }

  /** When `s` contains the separator, the parts before the last rejoin to
      the prefix of `s` that ends just before the final cut. */
  lemma SplitHeadIsPrefix(s: string, sep: string)
    requires |sep| > 0
    requires IsSubstring(sep, s)
    ensures var parts := Split(s, sep);
      && |parts| >= 2
      && s == Join(parts[..|parts| - 1], sep) + sep + parts[|parts| - 1]
  {
    var parts := Split(s, sep);
    assert |parts| >= 2 by { SplitParts(s, sep); }
    JoinLast(parts, sep);
    assert Join(parts, sep) == s;
  }

  /** Without a separator the whole sanitized title is the job title, and
      the company is `Unknown`, which the final sanitize leaves alone since it
      has no `&`. */
  lemma NormalizeWithoutSeparator(unescape: Unescape, title: string, link: string)
    requires LeavesPlainText(unescape)
    requires !IsSubstring(Separator, Sanitize(unescape, title))
    ensures Normalize(unescape, title, link).jobTitle == Sanitize(unescape, title)
    ensures Normalize(unescape, title, link).company == UnknownCompany
  {
    UnknownIsClean(unescape);
    assert !Contains(Sanitize(unescape, title), Separator);
  }

  /** `Unknown` holds no `&`, no tag and no surrounding whitespace, so the
      sanitizer keeps it. */
  lemma UnknownIsClean(unescape: Unescape)
    requires LeavesPlainText(unescape)
    ensures Sanitize(unescape, UnknownCompany) == UnknownCompany
  {
    assert '<' !in UnknownCompany && '&' !in UnknownCompany;
    NoOpenAngleIsTagFree(UnknownCompany);
    SanitizeKeepsClean(unescape, UnknownCompany);
  }

  /** The segments before the last cut of `split(' - ')`, rejoined with
      ` - `. */
  function HeadSegments(t: string): string {
    var parts := Split(t, Separator);
    Join(parts[..|parts| - 1], Separator)
  }

  /** The segment after the last cut of `split(' - ')`. */
  function LastSegment(t: string): string {
    var parts := Split(t, Separator);
    parts[|parts| - 1]
  }

  /** With a separator, the sanitized title is the rejoined head segments,
      the separator, and a last segment that holds no separator. */
  lemma SeparatorCut(t: string)
    requires IsSubstring(Separator, t)
    ensures t == HeadSegments(t) + Separator + LastSegment(t)
    ensures HeadSegments(t) == t[..|t| - |LastSegment(t)| - |Separator|]
    ensures !IsSubstring(Separator, LastSegment(t))
  {
    var parts := Split(t, Separator);
    SplitHeadIsPrefix(t, Separator);
    SplitParts(t, Separator);
    assert !IsSubstring(Separator, parts[|parts| - 1]);
    PrefixOfConcat(HeadSegments(t), Separator + LastSegment(t));
  }

  /** Solver aid, not a property of the model: the first operand of a
      concatenation is its prefix. */
  lemma PrefixOfConcat(a: string, b: string)
    ensures (a + b)[..|a|] == a
  {
  }

  /** With a separator, the job title is the stripped text before the last
      cut. */
  lemma NormalizeTitleWithSeparator(unescape: Unescape, title: string, link: string)
    requires IsSubstring(Separator, Sanitize(unescape, title))
    ensures var t := Sanitize(unescape, title);
      && |LastSegment(t)| + |Separator| <= |t|
      && Normalize(unescape, title, link).jobTitle
         == Trim(t[..|t| - |LastSegment(t)| - |Separator|])
  {
    SeparatorCut(Sanitize(unescape, title));
  }

  /** With a separator, the company is the last segment with every
      ` Careers` deleted (split on ` Careers` and rejoined with nothing),
      stripped and sanitized again. */
  lemma NormalizeCompanyWithSeparator(unescape: Unescape, title: string, link: string)
    requires IsSubstring(Separator, Sanitize(unescape, title))
    ensures var t := Sanitize(unescape, title);
      Normalize(unescape, title, link).company
      == Sanitize(unescape, Trim(Join(Split(LastSegment(t), CareersWord), "")))
  {
    ReplaceIsSplitJoin(LastSegment(Sanitize(unescape, title)), CareersWord, "");
  }

  /** A non-empty sanitized title yields a non-empty job title: in the split
      branch the text before the first cut starts with the title's first
      character, which is not whitespace. */
  lemma NormalizeKeepsTitle(unescape: Unescape, title: string, link: string)
    requires |Sanitize(unescape, title)| > 0
    ensures |Normalize(unescape, title, link).jobTitle| > 0
  {
    var t := Sanitize(unescape, title);
    if Contains(t, Separator) {
      var parts := Split(t, Separator);
      var head := HeadSegments(t);
      SplitHeadIsPrefix(t, Separator);
      FirstPartNonEmpty(t, Separator);
      assert |parts[0]| > 0;
      assert head[0] == parts[0][0] == t[0];
      TrimNonEmpty(head, 0);
    }
  }

  /** When `s` starts with a non-space character and the separator starts
      with a space, the first part of the split is not empty. */
  lemma FirstPartNonEmpty(s: string, sep: string)
    requires |sep| > 0 && |s| > 0
    requires IsSpace(sep[0]) && !IsSpace(s[0])
    ensures |Split(s, sep)[0]| > 0
    ensures Split(s, sep)[0][0] == s[0]
  {
    match FindFrom(s, sep, 0)
    case None =>
    case Some(k) =>
      assert s[0..|sep|][0] == s[0];
  }
}

=== FILE: sanitizer.dfy ===
/**
 The text sanitizer `strip_html_tags`: decode HTML character references,
 delete every match of the pattern `<[^>]+>` scanning left to right, then
 strip surrounding whitespace. An empty input is returned unchanged.

 The character-reference decoder (Python's `html.unescape`) is a parameter.
 The only fact assumed about it, where a lemma needs one, is that it returns
 a string without `&` unchanged.
 */
module Sanitizer {
  import opened Text

  /** A decoder of HTML character references. */
  type Unescape = string -> string

  /** The decoder leaves every string without `&` as it is. */
  ghost predicate LeavesPlainText(unescape: Unescape) {
    forall s :: '&' !in s ==> unescape(s) == s
  }

  /** `t` as a whole matches the regular expression `<[^>]+>`. */
  ghost predicate MatchesTag(t: string) {
    && |t| >= 3
    && t[0] == '<'
    && t[|t| - 1] == '>'
    && forall k :: 0 < k < |t| - 1 ==> t[k] != '>'
  }

  /** The slice `s[i..j]` matches `<[^>]+>`, stated on the indices of `s`. */
  ghost predicate TagSpan(s: string, i: nat, j: nat) {
    && i + 3 <= j <= |s|
    && s[i] == '<'
    && s[j - 1] == '>'
    && forall k :: i < k < j - 1 ==> s[k] != '>'
  }

  /** The two statements of a match agree. */
  lemma TagSpanMatchesTag(s: string, i: nat, j: nat)
    requires i <= j <= |s|
    ensures TagSpan(s, i, j) <==> MatchesTag(s[i..j])
  {
    var t := s[i..j];
    if MatchesTag(t) {
      forall k | i < k < j - 1
        ensures s[k] != '>'
      {
        assert s[k] == t[k - i];
      }
    }
  }

  /** No substring of `s` matches `<[^>]+>`. */
  ghost predicate TagFree(s: string) {
    forall i: nat, j: nat :: i <= j <= |s| ==> !TagSpan(s, i, j)
  }

  /** Every `<` in `s` is followed either directly by `>` or by no `>` at all. */
  ghost predicate AnglesDisarmed(s: string) {
    forall i :: 0 <= i < |s| && s[i] == '<' ==>
      (i + 1 < |s| && s[i + 1] == '>') || '>' !in s[i + 1..]
  }

  /** Index of the first `c` in `s`. */
  function IndexOf(s: string, c: char): (r: Option<nat>)
    ensures r.Some? ==> r.value < |s| && s[r.value] == c
    ensures r.Some? ==> forall k :: 0 <= k < r.value ==> s[k] != c
    ensures r.None? ==> c !in s
  {
    if |s| == 0 then None
    else if s[0] == c then Some(0)
    else
      match IndexOf(s[1..], c)
      case None => None
      case Some(k) => Some(k + 1)
  }

  /** `re.sub(r'<[^>]+>', '', s)`. A match starts at a `<` whose first
      following `>` is not the very next character; it ends at that `>`.
      Scanning resumes after the match. Every `<` that is kept is followed by
      `>` or by no `>` at all, so no tag survives. */
  function RemoveTags(s: string): (r: string)
    ensures |r| <= |s|
    ensures forall c :: c in r ==> c in s
    ensures |s| > 0 && s[0] != '<' ==> |r| > 0 && r[0] == s[0]
    ensures AnglesDisarmed(r)
    decreases |s|
  {
    if |s| == 0 then []
    else
      var close := IndexOf(s[1..], '>');
      if s[0] == '<' && close.Some? && close.value > 0 then
        RemoveTags(s[close.value + 2..])
      else
        var rest := RemoveTags(s[1..]);
        assert s[0] == '<' && close.Some? ==> s[1..][0] == '>';
        DisarmedPrepend(s[0], rest);
        [s[0]] + rest
  }

  /** Keeping one more character in front of a disarmed string keeps it
      disarmed, when a kept `<` is followed by `>` or by no `>` at all. */
  lemma DisarmedPrepend(x: char, rest: string)
    requires AnglesDisarmed(rest)
    requires x == '<' ==> (|rest| > 0 && rest[0] == '>') || '>' !in rest
    ensures AnglesDisarmed([x] + rest)
  {
    var r := [x] + rest;
    assert r[1..] == rest;
    forall i | 0 <= i < |r| && r[i] == '<'
      ensures (i + 1 < |r| && r[i + 1] == '>') || '>' !in r[i + 1..]
    {
      if i > 0 {
        assert r[i] == rest[i - 1];
        assert r[i + 1..] == rest[i..];
      }
    }
  }

  /** A string whose angle brackets are disarmed holds no tag. */
  lemma DisarmedIsTagFree(s: string)
    requires AnglesDisarmed(s)
    ensures TagFree(s)
  {
    forall i: nat, j: nat | i <= j <= |s| && i + 3 <= j && s[i] == '<' && s[j - 1] == '>'
      ensures !TagSpan(s, i, j)
    {
      assert s[i + 1..][j - i - 2] == '>';
      assert s[i + 1] == '>';
    }
  }

  /** Every slice of a tag-free string is tag-free. */
  lemma TagFreeSlice(s: string, a: nat, b: nat)
    requires a <= b <= |s|
    requires TagFree(s)
    ensures TagFree(s[a..b])
  {
    forall i: nat, j: nat | i <= j <= b - a
      ensures !TagSpan(s[a..b], i, j)
    {
      assert !TagSpan(s, a + i, a + j);
    }
  }

  /** The same, for a string known to equal a slice. */
  lemma TagFreeInfix(s: string, r: string, a: nat)
    requires TagFree(s)
    requires a + |r| <= |s| && r == s[a..a + |r|]
    ensures TagFree(r)
  {
    TagFreeSlice(s, a, a + |r|);
  }

  /** A string without `<` holds no tag. */
  lemma NoOpenAngleIsTagFree(s: string)
    requires '<' !in s
    ensures TagFree(s)
  {
  }

  /** Stripping whitespace keeps a string tag-free. */
  lemma TagFreeTrim(s: string)
    requires TagFree(s)
    ensures TagFree(Trim(s))
  {
    TrimIsSlice(s);
    TagFreeInfix(s, Trim(s), |s| - |TrimStart(s)|);
  }

  /** A `<` whose first following `>` is not the very next character opens
      a match that ends at that `>`. */
  lemma TagAtFront(s: string)
    requires |s| > 0 && s[0] == '<'
    requires IndexOf(s[1..], '>').Some? && IndexOf(s[1..], '>').value > 0
    ensures TagSpan(s, 0, IndexOf(s[1..], '>').value + 2)
  {
    var j := IndexOf(s[1..], '>').value + 2;
    forall k | 0 < k < j - 1
      ensures s[k] != '>'
    {
      assert s[k] == s[1..][k - 1];
    }
  }

  /** Tag removal changes nothing in a string that holds no tag. */
  lemma {:induction false} RemoveTagsKeepsTagFree(s: string)
    requires TagFree(s)
    ensures RemoveTags(s) == s
    decreases |s|
  {
    if |s| > 0 {
      var close := IndexOf(s[1..], '>');
      if s[0] == '<' && close.Some? && close.value > 0 {
        TagAtFront(s);
        assert false;
      } else {
        TagFreeSlice(s, 1, |s|);
        assert s[1..|s|] == s[1..];
        RemoveTagsKeepsTagFree(s[1..]);
        assert RemoveTags(s) == [s[0]] + RemoveTags(s[1..]);
        assert [s[0]] + s[1..] == s;
      }
    }
  }

  /** Text without `<` is copied through: the substitution keeps every
      character outside a match, in order. */
  lemma {:induction false} RemoveTagsKeepsText(a: string, b: string)
    requires '<' !in a
    ensures RemoveTags(a + b) == a + RemoveTags(b)
    decreases |a|
  {
    if |a| > 0 {
      var s := a + b;
      assert s[0] == a[0];
      assert s[1..] == a[1..] + b;
      RemoveTagsKeepsText(a[1..], b);
      assert a == [a[0]] + a[1..];
    } else {
      assert a + b == b;
    }
  }

  /** A match at the front is deleted whole and scanning resumes after it. */
  lemma RemoveTagsDropsTag(t: string, b: string)
    requires MatchesTag(t)
    ensures RemoveTags(t + b) == RemoveTags(b)
  {
    var s := t + b;
    var close := IndexOf(s[1..], '>');
    assert s[1..][|t| - 2] == '>';
    forall k | 0 <= k < |t| - 2
      ensures s[1..][k] != '>'
    {
      assert s[1..][k] == t[k + 1];
    }
    assert close == Some(|t| - 2);
    assert s[|t|..] == b;
  }

  /** A `<` that starts no match is kept, and scanning moves on by one. */
  lemma RemoveTagsKeepsUnmatchedAngle(s: string)
    requires |s| > 0 && s[0] == '<'
    requires forall j: nat :: j <= |s| ==> !TagSpan(s, 0, j)
    ensures RemoveTags(s) == [s[0]] + RemoveTags(s[1..])
  {
    var close := IndexOf(s[1..], '>');
    if close.Some? && close.value > 0 {
      TagAtFront(s);
      assert false;
    }
  }

  /** `re.sub` deletes exactly the match and keeps the text before it. */
  lemma RemoveTagsSkipsTag(a: string, t: string, b: string)
    requires '<' !in a && MatchesTag(t)
    ensures RemoveTags(a + t + b) == a + RemoveTags(b)
  {
    assert a + t + b == a + (t + b);
    RemoveTagsKeepsText(a, t + b);
    RemoveTagsDropsTag(t, b);
  }

  /** Solver aid for the example below, not a property of the model:
      `<b>` and `</b>` are matches of `<[^>]+>`. */
  lemma BoldTagsMatch()
    ensures MatchesTag("<b>") && MatchesTag("</b>")
  {
  }

  /** Solver aid for the example below, not a property of the model: the
      pieces of the decoded example `<b>Hi</b> & Co`. */
  lemma ExamplePieces(s: string)
    requires s == "<b>Hi</b> & Co"
    ensures s[..3] == "<b>" && s[3..5] == "Hi" && s[5..9] == "</b>" && s[9..] == " & Co"
    ensures s == s[..3] + (s[3..5] + s[5..9] + s[9..])
  {
  }

  /** Solver aid for the example below, not a property of the model: the
      text kept from the example, put back together. */
  lemma ExampleKept()
    ensures "Hi" + " & Co" == "Hi & Co"
  {
  }

  /** Tag removal on the decoded example `<b>Hi</b> & Co`: both tags go,
      the text around them stays. */
  lemma RemoveTagsExample(s: string)
    requires s == "<b>Hi</b> & Co"
    ensures RemoveTags(s) == "Hi & Co"
  {
    ExamplePieces(s);
    var first, text, second, tail := s[..3], s[3..5], s[5..9], s[9..];
    var rest := text + second + tail;
    BoldTagsMatch();
    RemoveTagsDropsTag(first, rest);
    assert RemoveTags(s) == RemoveTags(rest);
    RemoveTagsSkipsTag(text, second, tail);
    NoOpenAngleIsTagFree(tail);
    RemoveTagsKeepsTagFree(tail);
    assert RemoveTags(rest) == text + tail;
    ExampleKept();
  }

  /** `strip_html_tags("<b>Hi</b> &amp; Co")` is `Hi & Co`: the reference is
      decoded, both tags are deleted and the text between them is kept. */
  lemma SanitizeExample(unescape: Unescape)
    requires unescape("<b>Hi</b> &amp; Co") == "<b>Hi</b> & Co"
    ensures Sanitize(unescape, "<b>Hi</b> &amp; Co") == "Hi & Co"
  {
    RemoveTagsExample(unescape("<b>Hi</b> &amp; Co"));
    TrimTrimmed("Hi & Co");
  }

  /** `strip_html_tags(text)`. */
  function Sanitize(unescape: Unescape, text: string): (r: string)
    ensures |text| == 0 ==> r == text
    ensures TagFree(r)
    ensures Trimmed(r)
  {
    if |text| == 0 then text
    else
      var stripped := RemoveTags(unescape(text));
      DisarmedIsTagFree(stripped);
      TagFreeTrim(stripped);
      Trim(stripped)
  }

  /** A string that is already clean (no `&`, no tag, no surrounding
      whitespace) passes through the sanitizer unchanged. */
  lemma SanitizeKeepsClean(unescape: Unescape, s: string)
    requires LeavesPlainText(unescape)
    requires '&' !in s && TagFree(s) && Trimmed(s)
    ensures Sanitize(unescape, s) == s
  {
    if |s| > 0 {
      assert unescape(s) == s;
      RemoveTagsKeepsTagFree(s);
      TrimTrimmed(s);
    }
  }

  /** Sanitizing twice is sanitizing once, provided the first result holds no
      `&` that a second decoding could turn into markup. */
  lemma SanitizeIdempotentWithoutAmpersand(unescape: Unescape, text: string)
    requires LeavesPlainText(unescape)
    requires '&' !in Sanitize(unescape, text)
    ensures Sanitize(unescape, Sanitize(unescape, text)) == Sanitize(unescape, text)
  {
    SanitizeKeepsClean(unescape, Sanitize(unescape, text));
  }

  /** The tag in `<b>x` is deleted. */
  lemma RemoveOneTag()
    ensures RemoveTags("<b>x") == "x"
    ensures Trim("x") == "x"
  {
    var s := "<b>x";
    assert s[1..] == "b>x";
    assert IndexOf("b>x", '>') == Some(1);
    assert s[3..] == "x";
    assert RemoveTags("x") == "x";
    TrimTrimmed("x");
  }

  /** Still-encoded text without `<` survives tag removal. */
  lemma EncodedTagSurvives()
    ensures RemoveTags("&lt;b&gt;x") == "&lt;b&gt;x"
  {
    NoOpenAngleIsTagFree("&lt;b&gt;x");
    RemoveTagsKeepsTagFree("&lt;b&gt;x");
  }

  /** ... and stripping. */
  lemma EncodedTagTrimmed()
    ensures Trim("&lt;b&gt;x") == "&lt;b&gt;x"
  {
    TrimTrimmed("&lt;b&gt;x");
  }

  /** Without that proviso idempotence fails: `&amp;lt;b&amp;gt;x` decodes to
      `&lt;b&gt;x` on the first pass and only becomes the tag `<b>` on the
      second, which then deletes it. */
  lemma SanitizeNotIdempotent(unescape: Unescape)
    requires unescape("&amp;lt;b&amp;gt;x") == "&lt;b&gt;x"
    requires unescape("&lt;b&gt;x") == "<b>x"
    ensures Sanitize(unescape, "&amp;lt;b&amp;gt;x") == "&lt;b&gt;x"
    ensures Sanitize(unescape, Sanitize(unescape, "&amp;lt;b&amp;gt;x")) == "x"
  {
    EncodedTagSurvives();
    EncodedTagTrimmed();
    RemoveOneTag();
  }
}

=== FILE: store.dfy ===
/**
 The persisted `Job` record and the record store it lives in, modelled as a
 sequence of records in insertion order. The store's `job_url` column is
 unique; the autoincrement `id` is not modelled.
 */
module Store {

  /** A stored job posting. `createdAt` is the insertion timestamp, an
      opaque clock reading. */
  datatype Job = Job(
    jobTitle: string,
    company: string,
    jobUrl: string,
    applyLink: string,
    source: string,
    createdAt: int)

  /** The outcome of one batch operation on the store: it finished with
      `count` records changed or added (committed, or nothing to commit), or
      it raised and was rolled back, leaving `store` as it was. */
  datatype CycleResult =
    | Done(store: seq<Job>, count: nat)
    | RolledBack(store: seq<Job>)

  /** The `job_url` column of `jobs`. */
  function Urls(jobs: seq<Job>): (urls: seq<string>)
    ensures |urls| == |jobs|
    ensures forall i :: 0 <= i < |jobs| ==> urls[i] == jobs[i].jobUrl
  {
    if |jobs| == 0 then [] else Urls(jobs[..|jobs| - 1]) + [jobs[|jobs| - 1].jobUrl]
  }

  /** The uniqueness constraint on `job_url`. */
  ghost predicate DistinctUrls(jobs: seq<Job>) {
    forall i, j :: 0 <= i < j < |jobs| ==> jobs[i].jobUrl != jobs[j].jobUrl
  }
}

=== FILE: text.dfy ===
/**
 The string operations of Python's `str` that the ingestion pipeline relies on:
 substring search (`in`), `split`, `join`, `replace`, `strip` and `lower`,
 each defined over `seq<char>` and characterised by its contract. `FindFrom`
 is the search helper the others are built on.
 */
module Text {

  datatype Option<T> = None | Some(value: T)

  /** Python's `str.isspace` for one character: the ASCII controls TAB..CR,
      the separators U+001C..U+001F, SPACE, and the Unicode space characters. */
  predicate IsSpace(c: char) {
    || c == ' '
    || ('\t' <= c <= '\r')
    || ('\U{1C}' <= c <= '\U{1F}')
    || c == '\U{85}'
    || c == '\U{A0}'
    || c == '\U{1680}'
    || ('\U{2000}' <= c <= '\U{200A}')
    || c == '\U{2028}'
    || c == '\U{2029}'
    || c == '\U{202F}'
    || c == '\U{205F}'
    || c == '\U{3000}'
  }

  /** `p` occurs in `s` starting at index `i`. */
  predicate OccursAt(s: string, p: string, i: nat) {
    i + |p| <= |s| && s[i..i + |p|] == p
  }

  /** Python's `p in s`. */
  ghost predicate IsSubstring(p: string, s: string) {
    exists i: nat :: OccursAt(s, p, i)
  }

  /** Search helper: index of the first occurrence of `p` in `s` at or
      after `start`. */
  function FindFrom(s: string, p: string, start: nat): (r: Option<nat>)
    requires |p| > 0
    ensures r.Some? ==> start <= r.value && OccursAt(s, p, r.value)
    ensures r.Some? ==> forall i: nat :: start <= i < r.value ==> !OccursAt(s, p, i)
    ensures r.None? ==> forall i: nat :: start <= i ==> !OccursAt(s, p, i)
    decreases |s| - start
  {
    if start + |p| > |s| then None
    else if OccursAt(s, p, start) then Some(start)
    else FindFrom(s, p, start + 1)
  }

  /** Python's `p in s`, computed. The empty string occurs everywhere. */
  function Contains(s: string, p: string): (r: bool)
    ensures r <==> IsSubstring(p, s)
  {
    if |p| == 0 then
      assert OccursAt(s, p, 0);
      true
    else
      var k := FindFrom(s, p, 0);
      if k.Some? then
        assert OccursAt(s, p, k.value);
        true
      else
        false
  }

  /** An occurrence inside a slice is an occurrence in the whole string. */
  lemma OccursInSlice(s: string, p: string, a: nat, b: nat, i: nat)
    requires a <= b <= |s|
    requires OccursAt(s[a..b], p, i)
    ensures OccursAt(s, p, a + i)
  {
    assert i + |p| <= b - a;
    forall k | 0 <= k < |p|
      ensures s[a + i..a + i + |p|][k] == p[k]
    {
      assert s[a..b][i..i + |p|][k] == p[k];
    }
  }

  /** Substring containment is transitive. */
  lemma SubstringTransitive(p: string, q: string, s: string)
    requires IsSubstring(p, q) && IsSubstring(q, s)
    ensures IsSubstring(p, s)
  {
    var i: nat :| OccursAt(q, p, i);
    var j: nat :| OccursAt(s, q, j);
    assert s[j..j + |q|] == q;
    OccursInSlice(s, p, j, j + |q|, i);
  }

  /** Python's `sep.join(parts)`: no parts give the empty string, one part
      gives that part, and otherwise the result starts with the first part
      (`JoinLast` states how a longer join is built). */
  function Join(parts: seq<string>, sep: string): (r: string)
    ensures |parts| == 0 ==> r == ""
    ensures |parts| == 1 ==> r == parts[0]
    ensures |parts| > 0 ==> |parts[0]| <= |r| && r[..|parts[0]|] == parts[0]
  {
    if |parts| == 0 then ""
    else if |parts| == 1 then parts[0]
    else parts[0] + sep + Join(parts[1..], sep)
  }

  /** Appending one more part appends the separator and that part. */
  lemma {:induction false} JoinAppend(parts: seq<string>, x: string, sep: string)
    requires |parts| > 0
    ensures Join(parts + [x], sep) == Join(parts, sep) + sep + x
    decreases |parts|
  {
    if |parts| == 1 {
      assert parts + [x] == [parts[0], x];
      assert [parts[0], x][1..] == [x];
    } else {
      assert (parts + [x])[1..] == parts[1..] + [x];
      JoinAppend(parts[1..], x, sep);
    }
  }

  /** A join of two or more parts is the join of all but the last, the
      separator, and the last part. */
  lemma JoinLast(parts: seq<string>, sep: string)
    requires |parts| >= 2
    ensures Join(parts, sep) == Join(parts[..|parts| - 1], sep) + sep + parts[|parts| - 1]
  {
    assert parts == parts[..|parts| - 1] + [parts[|parts| - 1]];
    JoinAppend(parts[..|parts| - 1], parts[|parts| - 1], sep);
  }

  /** Python's `s.split(sep)` for a non-empty separator: cut at every
      non-overlapping occurrence found scanning left to right. Joining the
      parts again with `sep` gives back `s`; where the cuts fall is stated by
      `SplitCutsLeftmost`. */
  function Split(s: string, sep: string): (parts: seq<string>)
    requires |sep| > 0
    ensures |parts| >= 1
    ensures Join(parts, sep) == s
    decreases |s|
  {
    match FindFrom(s, sep, 0)
    case None => [s]
    case Some(k) =>
      var rest := Split(s[k + |sep|..], sep);
      assert s == s[..k] + sep + s[k + |sep|..];
      assert ([s[..k]] + rest)[1..] == rest;
      [s[..k]] + rest
  }

  /** Each cut of `split` falls at the first occurrence at or after the
      start of its part: no part but the last, extended by all but the last
      character of `sep`, contains `sep`. With the round trip and
      `SplitParts` (no part, the last included, contains `sep`) this fixes
      the parts uniquely, also for a separator such as `" - "` whose
      occurrences can overlap. */
  lemma {:induction false} SplitCutsLeftmost(s: string, sep: string)
    requires |sep| > 0
    ensures forall i :: 0 <= i < |Split(s, sep)| - 1 ==>
      !IsSubstring(sep, Split(s, sep)[i] + sep[..|sep| - 1])
    decreases |s|
  {
    match FindFrom(s, sep, 0)
    case None =>
    case Some(k) =>
      var rest := Split(s[k + |sep|..], sep);
      SplitCutsLeftmost(s[k + |sep|..], sep);
      FirstCutIsLeftmost(s, sep, k);
      var parts := [s[..k]] + rest;
      assert Split(s, sep) == parts;
      forall i | 1 <= i < |parts| - 1
        ensures !IsSubstring(sep, parts[i] + sep[..|sep| - 1])
      {
        assert parts[i] == rest[i - 1];
        assert 0 <= i - 1 < |rest| - 1;
        assert !IsSubstring(sep, rest[i - 1] + sep[..|sep| - 1]);
      }
  }

  /** Cutting at the first occurrence `k` leaves a head that, extended by
      all but the last character of the separator, holds no occurrence. */
  lemma FirstCutIsLeftmost(s: string, sep: string, k: nat)
    requires |sep| > 0 && OccursAt(s, sep, k)
    requires forall i: nat :: i < k ==> !OccursAt(s, sep, i)
    ensures !IsSubstring(sep, s[..k] + sep[..|sep| - 1])
  {
    var w := s[..k] + sep[..|sep| - 1];
    assert w == s[..k + |sep| - 1];
    forall m: nat
      ensures !OccursAt(w, sep, m)
    {
      if OccursAt(w, sep, m) {
        OccursInSlice(s, sep, 0, k + |sep| - 1, m);
      }
    }
  }

  /** `split` cuts exactly when the separator occurs, and no part it returns
      contains the separator. */
  lemma {:induction false} SplitParts(s: string, sep: string)
    requires |sep| > 0
    ensures |Split(s, sep)| >= 2 <==> IsSubstring(sep, s)
    ensures forall i :: 0 <= i < |Split(s, sep)| ==> !IsSubstring(sep, Split(s, sep)[i])
    decreases |s|
  {
    match FindFrom(s, sep, 0)
    case None =>
    case Some(k) =>
      var rest := Split(s[k + |sep|..], sep);
      SplitParts(s[k + |sep|..], sep);
      assert Split(s, sep) == [s[..k]] + rest;
      if IsSubstring(sep, s[..k]) {
        var m: nat :| OccursAt(s[..k], sep, m);
        OccursInSlice(s, sep, 0, k, m);
        assert false;
      }
  }

  /** Python's `s.replace(target, replacement)` for a non-empty target:
      every non-overlapping occurrence, scanning left to right. */
  function ReplaceAll(s: string, target: string, replacement: string): (r: string)
    requires |target| > 0
    ensures !IsSubstring(target, s) ==> r == s
    decreases |s|
  {
    match FindFrom(s, target, 0)
    case None => s
    case Some(k) =>
      assert OccursAt(s, target, k);
      s[..k] + replacement + ReplaceAll(s[k + |target|..], target, replacement)
  }

  /** `s.replace(t, u)` is `u.join(s.split(t))`. */
  lemma {:induction false} ReplaceIsSplitJoin(s: string, target: string, replacement: string)
    requires |target| > 0
    ensures ReplaceAll(s, target, replacement) == Join(Split(s, target), replacement)
    decreases |s|
  {
    match FindFrom(s, target, 0)
    case None =>
    case Some(k) =>
      var rest := Split(s[k + |target|..], target);
      ReplaceIsSplitJoin(s[k + |target|..], target, replacement);
      assert ([s[..k]] + rest)[1..] == rest;
  }

  /** `s` has no whitespace at either end. */
  predicate Trimmed(s: string) {
    |s| == 0 || (!IsSpace(s[0]) && !IsSpace(s[|s| - 1]))
  }

  /** Python's `s.lstrip()`: the suffix left after dropping leading whitespace. */
  function TrimStart(s: string): (r: string)
    ensures |r| <= |s| && r == s[|s| - |r|..]
    ensures |r| > 0 ==> !IsSpace(r[0])
    ensures forall i :: 0 <= i < |s| - |r| ==> IsSpace(s[i])
  {
    if |s| > 0 && IsSpace(s[0]) then TrimStart(s[1..]) else s
  }

  /** Python's `s.rstrip()`: the prefix left after dropping trailing whitespace. */
  function TrimEnd(s: string): (r: string)
    ensures |r| <= |s| && r == s[..|r|]
    ensures |r| > 0 ==> !IsSpace(r[|r| - 1])
    ensures forall i :: |r| <= i < |s| ==> IsSpace(s[i])
  {
    if |s| > 0 && IsSpace(s[|s| - 1]) then TrimEnd(s[..|s| - 1]) else s
  }

  /** Python's `s.strip()`. */
  function Trim(s: string): (r: string)
    ensures Trimmed(r)
    ensures |r| <= |s|
  {
    var t := TrimStart(s);
    var r := TrimEnd(t);
    assert |r| > 0 ==> r[0] == t[0];
    r
  }

  /** `strip` returns a slice of its argument. */
  lemma TrimIsSlice(s: string)
    ensures var a := |s| - |TrimStart(s)|;
      a + |Trim(s)| <= |s| && Trim(s) == s[a..a + |Trim(s)|]
  {
    var t := TrimStart(s);
    var r := Trim(s);
    assert r == t[..|r|];
  }

  /** `strip` removes whitespace and only whitespace: it returns the slice of
      `s` between its first and last non-space characters. */
  lemma TrimSlice(s: string)
    ensures var a := |s| - |TrimStart(s)|;
      && a + |Trim(s)| <= |s|
      && Trim(s) == s[a..a + |Trim(s)|]
      && (forall i :: 0 <= i < a ==> IsSpace(s[i]))
      && (forall i :: a + |Trim(s)| <= i < |s| ==> IsSpace(s[i]))
  {
    var t := TrimStart(s);
    var a := |s| - |t|;
    var r := Trim(s);
    TrimIsSlice(s);
    forall i | a + |r| <= i < |s|
      ensures IsSpace(s[i])
    {
      assert s[i] == t[i - a];
    }
  }

  /** `strip` leaves a string with no whitespace at its ends as it is. */
  lemma TrimTrimmed(s: string)
    requires Trimmed(s)
    ensures Trim(s) == s
  {
    if |s| > 0 {
      assert !IsSpace(s[0]);
      assert TrimStart(s) == s;
      assert !IsSpace(s[|s| - 1]);
      assert TrimEnd(s) == s;
    }
  }

  /** `strip` of a string with a non-space character is not empty. */
  lemma TrimNonEmpty(s: string, i: nat)
    requires i < |s| && !IsSpace(s[i])
    ensures |Trim(s)| > 0
  {
    TrimSlice(s);
  }

  /** ASCII lower-casing of one character. */
  function LowerChar(c: char): char {
    if 'A' <= c <= 'Z' then (c as int + 32) as char else c
  }

  /** Python's `s.lower()`, restricted to ASCII letters. */
  function Lower(s: string): (r: string)
    ensures |r| == |s|
    ensures forall i :: 0 <= i < |s| ==> r[i] == LowerChar(s[i])
  {
    seq(|s|, i requires 0 <= i < |s| => LowerChar(s[i]))
  }
}
